=== FILE: README.md ===
# Newton-GPT core, modelled in Dafny

Newton-GPT is a Discord bot that relays thread conversations to a GPT
completion service. A terminal front end starts it. This project models the
parts of the bot that are decisions over data, not I/O:

- **The per-user preference store** (`Users`, a list of `{user_id, model}`
  records). It has lookup, append, update and delete of the first matching
  record. The disk is an abstract value (`Disk`): the store is loaded from it
  and a write replaces it. The BSON encoding is not modelled.
- **The `/model` and `/info` commands.** `/model` updates the caller's
  record or appends one. `/info` reports the caller's model and records the
  default `gpt-3.5-turbo` for a caller it has not seen.
- **The transcript builder.** It turns channel messages into role-tagged chat
  messages, in input order. A message is the bot's (role Assistant) when its
  author id, written in decimal, equals the `BOT_ID` text.
- **The engine choice and the completion request.**
- **The message handler.** It ignores the bot's own messages. It sorts the
  thread members by join time with a stable sort and answers only when the
  earliest member is the bot. It then fetches 30 recent messages, resolves
  the author's model (recording the default for a new author), starts the
  typing indicator and builds the request.
- **Command dispatch.** Every reply is ephemeral, and unknown names get
  `not implemented :(`.
- **The terminal key loop.** A popup confirms starting the bot. After that,
  the screen is in a text-input mode that it never leaves.

Modules: `Wrappers` (Option, Result), `Ids` (u64 ids, decimal rendering and
parsing), `DataStorage`, `Commands` (the reply texts and reply type the
command handlers share), `ModelCommand`, `InfoCommand`, `Gpt`,
`ThreadMembers`, `Handler` (src/lib.rs) and `Tui` (src/ui/mod.rs).

Every I/O result is a parameter. This covers:

- the disk state;
- how a store write ends (`WriteOutcome`): written, failed with an error
  text, or a panic in the final flush;
- the thread-member query's answer (`None` when it fails);
- the recent-message query, as a function from the requested count to its
  answer;
- whether the typing indicator starts;
- whether the completion client can be built;
- the completion service's reply to a request.

A failed `unwrap` or `expect` ends a message turn as `Aborted`, with the
reason. A panic in a command handler ends the interaction as `Unanswered`.
`Tui.Initial` is the state `App::default` builds.

The message turn and the request builder take the engine rule as a
parameter (`Gpt.EngineRule`): `AsWritten` is the comparison the code makes,
`Corrected` the one its design evidently intends (see Findings).

Behaviour of the source that the model keeps as written:

- The transcript is not reordered. Messages keep the order of the history
  query, and the text sent as the new message is the first element's content.
- The store has no combined upsert. `/model` calls `update_user` and then,
  if nothing was updated, `add_user` (`ModelCommand.Upsert`). Only the first
  record with the caller's id is updated; later duplicates keep their models.
- The engine is chosen by comparing the stored text with a quoted literal.
  See Findings.
- A failed write of a new author's default record `unwrap`s, so the turn
  ends without a reply (`Handler.ResolveModel`).
- A panic in the flush that ends every store write leaves a `/model` or
  `/info` command without a response (`Handler.OnInteraction`).
- A failed typing indicator `expect`s and ends the turn after the default
  record was written; an empty history does the same when the first entry
  is taken with `unwrap`.

## Model

| member | source | states |
|---|---|---|
| `Ids.Decimal` | src/utils/gpt.rs:57 | An id's `to_string` text is a non-empty string of decimal digits with no leading zero |
| `Ids.DecimalValue` | src/utils/gpt.rs:57 | The digits of an id's `to_string` text denote the id |
| `Ids.ParseU64` | src/lib.rs:29-32 | The u64 parse succeeds exactly when the text, after one optional '+', is a non-empty digit string whose value is below 2^64, and then gives that value |
| `Ids.ParseDecimal` | src/lib.rs:29-32 | Parsing the decimal text of any u64 gives that u64 back |
| `Ids.DecimalInjective` | src/utils/gpt.rs:57 | Two ids have the same `to_string` text exactly when they are equal |
| `Ids.NonNumericRejected` | src/lib.rs:29-32 | A text with a character that is neither a digit nor one leading '+' does not parse as a u64 |
| `Handler.BotId` | src/lib.rs:29-32 | The bot id is the parsed value of `BOT_ID` when it parses, and 0 when it is unset or does not parse; a non-zero id comes from an all-digit text |
| `Handler.BotIdReadsDecimal` | src/lib.rs:29-32 | A `BOT_ID` holding the decimal id is read as that id |
| `Handler.BotIdNonNumeric` | src/lib.rs:29-32 | A non-numeric or missing `BOT_ID` is treated as 0 |
| `Handler.BotIdViewsAgree` | src/utils/gpt.rs:53-57 | When `BOT_ID` is the decimal id, the transcript's text comparison and the filter's numeric comparison agree on which messages are the bot's |
| `DataStorage.Position` | src/utils/datastorage.rs:73 | Gives no index exactly when no record has the id; otherwise the index of a record with the id, with none before it |
| `DataStorage.FindUserById` | src/utils/datastorage.rs:55-57 | Gives None exactly when no record has the id; otherwise the first record with that id |
| `DataStorage.AddUser` | src/utils/datastorage.rs:59-61 | The list grows by one, the new record is last and every earlier record is unchanged |
| `DataStorage.AddExistingBreaksUniqueness` | src/utils/datastorage.rs:59-61 | Adding a record for an id already present leaves two records with that id, because no check is made |
| `DataStorage.UpdateUser` | src/utils/datastorage.rs:63-70 | Returns true exactly when the id is present; then only the first match gets the new model, and the length and all ids stay the same; when it returns false the store is unchanged |
| `DataStorage.UpdateThenFind` | src/utils/datastorage.rs:55-70 | After an update that returned true, looking the id up finds the record with the new model |
| `DataStorage.DeleteUser` | src/utils/datastorage.rs:72-79 | Returns true exactly when the id is present; then it removes exactly the first match, keeps the rest in order and shortens the list by one; when it returns false the store is unchanged |
| `DataStorage.UniqueByCount` | src/utils/datastorage.rs:18-21 | The store has unique ids exactly when every record's id occurs once |
| `DataStorage.FindIsOnlyMatch` | src/utils/datastorage.rs:55-57 | In a store with unique ids, a present id occurs once and every record with it is the one the lookup finds |
| `DataStorage.Load` | src/utils/datastorage.rs:24-31 | Loading succeeds exactly when the disk holds a document, and gives its content; a missing file is a not-found error |
| `DataStorage.Persist` | src/utils/datastorage.rs:33-53 | A completed write makes the next load give the written store; a write that returns an error or panics in the flush leaves the disk as it was |
| `DataStorage.PersistLoaded` | src/utils/datastorage.rs:24-53 | Writing back a loaded store leaves the disk unchanged |
| `DataStorage.InitStore` | src/utils/datastorage.rs:96-109 | A missing store file is created holding an empty user list; any other disk state is left alone |
| `ModelCommand.ChoiceValues` | src/commands/model.rs:72-77 | The registered choices offer exactly `gpt-3.5-turbo` and `gpt-4` |
| `ModelCommand.JsonText` | src/commands/model.rs:36 | The stored text of a string option is its value between double quotes |
| `ModelCommand.Upsert` | src/commands/model.rs:36-45 | Afterwards the caller's first record holds the new model. For an existing caller the store is exactly what `update_user` leaves: only the first record with the id changes, and later duplicates keep their models. A new caller gets exactly one appended record. Records of other ids and all ids at existing positions are unchanged |
| `ModelCommand.UpsertCounts` | src/commands/model.rs:36-45 | The caller's record count goes from 0 to 1 or stays the same, and other ids' counts are unchanged |
| `ModelCommand.UpsertKeepsOthers` | src/commands/model.rs:36-45 | An upsert for one id does not change what a lookup of any other id finds |
| `ModelCommand.UpsertIsAdd` | src/commands/model.rs:36-45 | For an id without a record the upsert is exactly `add_user` of the new record, and the lookup then finds that record |
| `ModelCommand.UpsertKeepsUnique` | src/commands/model.rs:36-45 | If ids were unique before the upsert, they are unique after it |
| `ModelCommand.UpsertIdempotent` | src/commands/model.rs:36-45 | Upserting the same id and model twice gives the same store as once |
| `ModelCommand.UpsertLastWins` | src/commands/model.rs:36-45 | Two upserts for one id give the store that the second alone gives |
| `ModelCommand.UpsertAllLeavesOne` | src/commands/model.rs:36-45 | Any non-empty run of upserts for an id, from a store with at most one record for it, leaves exactly one record, holding the last model |
| `Commands.WriteFailureReply` | src/commands/model.rs:54-55 | The write-error reply is "[ERROR] - Cannot update model for user: " followed by the error text |
| `ModelCommand.Run` | src/commands/model.rs:10-60 | A load failure gives "Error in datastorage." and a missing value gives "Error fetch the model name."; neither writes. A write that returns an error gives the error prefix plus the error text and writes nothing; a panic in the flush ends the command with no reply. Otherwise the disk holds exactly the loaded store upserted with the given value, unchecked, and the reply is the fixed success text |
| `InfoCommand.InfoReply` | src/commands/info.rs:52 | The reply is "The currently selected GPT model: " followed by the model |
| `InfoCommand.Run` | src/commands/info.rs:10-53 | A load failure gives "Error in datastorage.". A known caller gets their stored model and nothing is written. A new caller gets one appended record with `gpt-3.5-turbo` and a reply naming it; a write that returns an error gives the write-error text, and a panic in the flush ends the command with no reply, both writing nothing |
| `InfoCommand.SecondInfoReadOnly` | src/commands/info.rs:24-47 | A second `/info` for a caller the first one registered writes nothing and gives the same reply |
| `InfoCommand.InfoAfterModel` | src/commands/info.rs:48-52 | `/info` after a successful `/model` reports exactly the stored option text |
| `InfoCommand.InfoKeepsUnique` | src/commands/info.rs:26-47 | `/info` keeps the store's ids unique |
| `Gpt.BotIdText` | src/utils/gpt.rs:53-54 | The transcript's bot id is the `BOT_ID` text, or "0" when it is unset |
| `Gpt.RoleOf` | src/utils/gpt.rs:57-62 | A message is the Assistant's exactly when its author's decimal id equals the bot id text |
| `Gpt.Entry` | src/utils/gpt.rs:57-62 | An entry copies its message's content and has role Assistant exactly for the bot's messages |
| `Gpt.History` | src/utils/gpt.rs:50-66 | The output has the same length as the input, and element i is the entry for message i, so the order is kept and empty input gives empty output |
| `Gpt.HistoryEntries` | src/utils/gpt.rs:57-62 | Entry i has message i's content, and role Assistant exactly when message i's author id text equals the bot id |
| `Gpt.HistoryAppend` | src/utils/gpt.rs:56-63 | The transcript of a concatenation is the concatenation of the transcripts |
| `Gpt.BuildHistory` | src/utils/gpt.rs:50-66 | The push loop builds exactly the transcript `History` describes |
| `Gpt.SelectEngineAsWritten` | src/utils/gpt.rs:19 | As written, GPT-3.5-turbo is selected exactly for the text `"gpt-3.5-turbo"` including its quote characters |
| `Gpt.DefaultSelectsGpt4AsWritten` | src/utils/gpt.rs:19 | As written, the unquoted default `gpt-3.5-turbo` selects GPT-4 |
| `Gpt.Unquoted` | src/utils/gpt.rs:19 | Drops one pair of surrounding double quotes and nothing else |
| `Gpt.EngineNamed` | src/utils/gpt.rs:19 | A bare model name denotes GPT-3.5-turbo exactly when it is `gpt-3.5-turbo`, and GPT-4 otherwise |
| `Gpt.SelectEngine` | src/utils/gpt.rs:19 | Corrected rule: GPT-3.5-turbo exactly when the stored text, with one pair of surrounding quotes removed, is `gpt-3.5-turbo`; GPT-4 otherwise |
| `Gpt.EngineHonoursNames` | src/utils/gpt.rs:19 | Under the corrected rule the default selects GPT-3.5-turbo, and a name selects the same engine whether stored bare or quoted |
| `Gpt.EngineFor` | src/utils/gpt.rs:19 | Under the written rule GPT-3.5-turbo exactly for the quoted literal; under the corrected rule exactly for a text naming `gpt-3.5-turbo`, quoted or not |
| `Gpt.EngineExtendsAsWritten` | src/utils/gpt.rs:19 | The corrected rule selects GPT-3.5-turbo wherever the written one does |
| `Handler.ChoicesSelectTheirEngine` | src/utils/gpt.rs:19 | Each registered choice, stored as quoted JSON text, selects the engine it names under the corrected rule; as written only the quoted 3.5 choice selects GPT-3.5-turbo |
| `Gpt.BuildRequest` | src/utils/gpt.rs:14-38 | The request needs a non-empty transcript. Its history is the whole transcript in order, its outgoing text is the first entry's content, and its engine is GPT-3.5-turbo exactly when the given rule's test on the stored model holds |
| `Gpt.RequestFromMessages` | src/utils/gpt.rs:30-38 | A request built from channel messages has one conversation entry per message in query order, with each message's content and the Assistant role exactly for the bot's; its outgoing text is the first message's content, the same as the first entry's |
| `Gpt.ReplyText` | src/utils/gpt.rs:23-47 | The reply is the completion's text, or "Error." when the call fails |
| `ThreadMembers.Insert` | src/lib.rs:48-50 | Insertion adds exactly the one member to the list's multiset |
| `ThreadMembers.InsertSorted` | src/lib.rs:48-50 | Inserting into a list sorted by join time keeps it sorted |
| `ThreadMembers.SortByJoin` | src/lib.rs:48-50 | The sort is a permutation of the members, sorted by join time |
| `ThreadMembers.SortIsStable` | src/lib.rs:48-50 | Members that joined at the same time keep their relative order |
| `ThreadMembers.Earliest` | src/lib.rs:52 | The earliest member is in the list and joined no later than any other |
| `ThreadMembers.EarliestIsFirstOfTies` | src/lib.rs:48-52 | No member listed before the earliest member joined at the same time |
| `ThreadMembers.SortHeadIsEarliest` | src/lib.rs:48-52 | The first member after sorting is the earliest member, ties going to the one listed first |
| `Handler.Admit` | src/lib.rs:34-54 | The bot's own messages are stopped as such, a failed member query as such, and an empty member list or an earliest member with another id as not the bot's thread. A turn proceeds exactly when the member list is non-empty and its earliest member is the bot. An earliest member with no id ends the turn |
| `Handler.ResolveModel` | src/lib.rs:78-94 | A known author's stored model is used and the store is unchanged. An unknown author gets `gpt-3.5-turbo` and a default record is appended. A failed load or write ends the turn |
| `Handler.OnMessage` | src/lib.rs:28-128 | The bot's own messages get no reply. Each early exit is stated: skipped for an ineligible thread or a failed history query, aborted for a member without id, a failed load, a failed write for a new author, or a failed typing start, each with the reason `Admit` gives or the step that failed. A turn in an eligible thread, with the history, a readable store, the author known or the write completed, the typing indicator and the client, gets a request exactly when the history is non-empty; an empty history aborts the turn after the default record was written. The request carries that history's transcript with its first element as the prompt, and the engine the rule gives the author's stored model (the default for a new author). A failed client gives "Error.". The store changes only by adding a default record for a new author, and only once that write has completed |
| `Handler.NewUserTurnAsWritten` | src/lib.rs:79-107 | As written, a turn by a user without a record asks for GPT-4 while recording `gpt-3.5-turbo` for them |
| `Handler.NewUserTurnCorrected` | src/lib.rs:79-107 | Under the corrected rule the same turn asks for GPT-3.5-turbo |
| `Handler.RepeatTurnIsStable` | src/lib.rs:78-107 | A turn that replied has recorded its author, so repeating it on the disk it left writes nothing and ends the same way |
| `Handler.TurnAfterModel` | src/lib.rs:78-107 | After `/model` stores a value, the user's turns ask for the engine the rule gives that value and write nothing |
| `Handler.Route` | src/lib.rs:136-142 | "ping", "create_chat", "model" and "info" reach their handlers, and every other name is unrecognised |
| `Handler.OnInteraction` | src/lib.rs:130-159 | Every slash command gets one ephemeral reply unless its handler panics, and other interactions get none. Unknown names get "not implemented :(" and write nothing; `ping` and `create_chat` answer with their handlers' text; `model` and `info` answer with their handlers' reply and leave their disk; a command is unanswered exactly when `model` or `info` reaches a write that panics in the flush |
| `Handler.ModelThenInfo` | src/lib.rs:136-142 | `/model v` then `/info` from the same user, both through dispatch: the first gives the success text, the second answers with `v` and writes nothing, and other users' records are as before |
| `Tui.Step` | src/ui/mod.rs:73-141 | 'q' quits in both modes. A timeout or non-key event changes nothing. Only 'y' on a shown popup starts the bot, and it switches to Updating. Updating is never left. Normal mode never changes the input |
| `Tui.NormalModeKeys` | src/ui/mod.rs:81-119 | 's' toggles the popup, setting the selection to Some(false) if it was shown and None otherwise. 'y' on a shown popup confirms and starts the bot. 'n' and Esc close a shown popup, and do nothing when it is hidden, as 'y' does. Every other character, Backspace and every other key change nothing |
| `Tui.UpdatingModeKeys` | src/ui/mod.rs:120-140 | In Updating mode another character is appended to the input, Backspace drops the last one (nothing on empty input), and Esc and every other key do nothing |
| `Tui.UpdatingAbsorbs` | src/ui/mod.rs:120-140 | From Updating mode no sequence of events returns to Normal or starts the bot |
| `Tui.StartsAtMostOnce` | src/ui/mod.rs:96-107 | Over any sequence of events the bot is started at most once, and after that the mode is Updating |
| `Tui.NormalKeepsInput` | src/ui/mod.rs:81-119 | While the screen stays in Normal mode the text input never changes |
| `Tui.StartNeedsConfirmation` | src/ui/mod.rs:88-107 | From Normal mode a start needs a 'y' that finds the popup open: it was already open, or an 's' came before that 'y' |
| `Tui.InitialStartNeedsSThenY` | src/ui/mod.rs:41-107 | From the state `App::default` builds, the bot starts only after an 's' and a later 'y' |

## Findings

| source | as written | input that shows it | evidently intended | confidence | as-written member | corrected member |
|---|---|---|---|---|---|---|
| src/utils/gpt.rs:19 | The engine is GPT-3.5-turbo only when the stored model text equals `"gpt-3.5-turbo"` with its quote characters | A user with no record gets the bare default `gpt-3.5-turbo` (src/lib.rs:88, src/commands/info.rs:22), and that text selects GPT-4 | Each stored model selects the engine it names, both the bare default and the quoted JSON text `/model` stores | medium: relies on `to_string` of a JSON string value keeping the quotes; not executed | `Gpt.SelectEngineAsWritten`, `Gpt.DefaultSelectsGpt4AsWritten` | `Gpt.SelectEngine`, `Gpt.EngineHonoursNames` |

`Handler.OnMessage` and `Gpt.BuildRequest` take the rule as a parameter: `Handler.NewUserTurnAsWritten` is the behaviour of the code and `Handler.NewUserTurnCorrected` the intended one.

## Left out

- BSON encoding and decoding, and file and directory handling (`check_datastorage_exists`). The disk is an abstract `Disk` value, loaded and replaced as a whole.
- `DataStorage.Persist`: a write that fails part-way, or whose flush panics after the bytes were buffered, is modelled as leaving the disk unchanged. The model also does not cover the file being opened without truncation, which can leave stale bytes after a shorter document.
- Races between overlapping load, change and write sequences of concurrent handlers. The model is sequential: both loads in `/info` read the same disk.
- The shared log (`log_to_file`) and its file writes, timestamps and mutex. Log writes are assumed to succeed, although the source `unwrap`s their result.
- `create_chat` and `ping`. Their handlers are outside this model; `ping`'s source file is not part of this model. `Handler.OnInteraction` takes their reply texts as parameters and they write nothing.
- Network calls: member and history queries, the completion call, reply sending, the typing indicator and client start-up. Their results are parameters. A failed reply send is only logged, so it does not change the turn. Stopping the typing indicator is not modelled.
- The system message that `new_conversation` puts at the head of the conversation, before the transcript. `Gpt.Request` holds only the transcript.
- Configuration: the `API_BASE` and `API_KEY` lookups (which `expect`), the URL parse, and the fixed temperature 1.0 (floating point).
- The completion library appends the outgoing text to the history it sends. `Gpt.Request` records the history and the text separately.
- Thread-member join times are modelled as integers with the same order as the platform's timestamps.
- The `/model` option: registration marks it required, so its presence is assumed, and only its value may be missing. Its JSON value's text is modelled as an opaque string (`ModelCommand.JsonText` for plain names).
- Terminal rendering, the input-polling thread and its channel. The key loop's `Timeout` event stands for a receive timeout.

=== FILE: commands.dfy ===
/** What the slash-command handlers of src/commands share: how a handler
    ends and the texts they answer storage failures with. */
module Commands {
  import opened DataStorage

  /** How a command handler ends: with a reply text and the disk it leaves
      behind, or with a panic, after which no reply is sent. */
  datatype Reply = Reply(text: string, disk: Disk) | Panicked(disk: Disk)

  /** Reply of every command handler whose load of the store fails. */
  const LoadFailureReply: string := "Error in datastorage."

  /** Leading text of the reply of a handler whose write of the store returns
      an error; the error's own text follows it. */
  const WriteFailurePrefix: string := "[ERROR] - Cannot update model for user: "

  function WriteFailureReply(reason: string): (r: string)
    ensures |r| == |WriteFailurePrefix| + |reason|
    ensures r[..|WriteFailurePrefix|] == WriteFailurePrefix && r[|WriteFailurePrefix|..] == reason
  {
    WriteFailurePrefix + reason
  }
}

=== FILE: datastorage.dfy ===
/** The per-user preference store of src/utils/datastorage.rs: an ordered list
    of `{user_id, model}` records, kept on disk as one document.  The document's
    encoding is abstracted: the disk holds either a decodable `Users` value or
    nothing readable. */
module DataStorage {
  import opened Wrappers
  import opened Ids

  /** The model recorded for a user the bot has not seen before. */
  const DefaultModel: string := "gpt-3.5-turbo"

  datatype User = User(userId: U64, model: string)

  datatype Users = Users(users: seq<User>)

  /** The store after an `update_user` or `delete_user` call, with the flag
      the call returns. */
  datatype Mutation = Mutation(store: Users, found: bool)

  /** At most one record per user id. */
  ghost predicate UniqueIds(store: Users) {
    forall i, j :: 0 <= i < j < |store.users| ==> store.users[i].userId != store.users[j].userId
  }

  predicate HasUser(store: Users, id: U64) {
    exists i :: 0 <= i < |store.users| && store.users[i].userId == id
  }

  /** Number of records carrying `id`. */
  function CountId(us: seq<User>, id: U64): (n: nat)
    ensures n <= |us|
  {
    if |us| == 0 then 0 else (if us[0].userId == id then 1 else 0) + CountId(us[1..], id)
  }

  /** Index of the first record carrying `id` (Rust's `position`). */
  function Position(us: seq<User>, id: U64): (r: Option<nat>)
    ensures r.None? <==> forall j :: 0 <= j < |us| ==> us[j].userId != id
    ensures r.Some? ==> r.value < |us| && us[r.value].userId == id
    ensures r.Some? ==> forall j :: 0 <= j < r.value ==> us[j].userId != id
  {
    if |us| == 0 then None
    else if us[0].userId == id then Some(0)
    else
      match Position(us[1..], id)
      case None => None
      case Some(k) => Some(k + 1)
  }

  /** `find_user_by_id`: the first record with the id, if any. */
  function FindUserById(store: Users, id: U64): (r: Option<User>)
    ensures r.None? <==> !HasUser(store, id)
    ensures r.Some? ==> r.value.userId == id
    ensures r.Some? ==> exists i :: 0 <= i < |store.users| && store.users[i] == r.value
                          && forall j :: 0 <= j < i ==> store.users[j].userId != id
  {
    match Position(store.users, id)
    case None => None
    case Some(i) => Some(store.users[i])
  }

  /** `add_user`: appends, without looking for an existing record. */
  function AddUser(store: Users, user: User): (r: Users)
    ensures |r.users| == |store.users| + 1
    ensures r.users[|store.users|] == user
    ensures forall i :: 0 <= i < |store.users| ==> r.users[i] == store.users[i]
  {
    Users(store.users + [user])
  }

  /** `update_user`: overwrites the model of the first record with the id. */
  function UpdateUser(store: Users, id: U64, newModel: string): (r: Mutation)
    ensures r.found <==> HasUser(store, id)
    ensures |r.store.users| == |store.users|
    ensures forall i :: 0 <= i < |store.users| ==> r.store.users[i].userId == store.users[i].userId
    ensures !r.found ==> r.store == store
    ensures r.found ==>
      exists i :: 0 <= i < |store.users| && store.users[i].userId == id
        && (forall j :: 0 <= j < i ==> store.users[j].userId != id)
        && r.store.users[i].model == newModel
        && (forall j :: 0 <= j < |store.users| && j != i ==> r.store.users[j] == store.users[j])
  {
    match Position(store.users, id)
    case None => Mutation(store, false)
    case Some(i) => Mutation(Users(store.users[i := User(id, newModel)]), true)
  }

  /** `delete_user`: removes the first record with the id. */
  function DeleteUser(store: Users, id: U64): (r: Mutation)
    ensures r.found <==> HasUser(store, id)
    ensures !r.found ==> r.store == store
    ensures r.found ==> |r.store.users| == |store.users| - 1
    ensures r.found ==>
      exists i :: 0 <= i < |store.users| && store.users[i].userId == id
        && (forall j :: 0 <= j < i ==> store.users[j].userId != id)
        && r.store.users == store.users[..i] + store.users[i + 1..]
  {
    match Position(store.users, id)
    case None => Mutation(store, false)
    case Some(i) => Mutation(Users(store.users[..i] + store.users[i + 1..]), true)
  }

  // ---------------------------------------------------------------------------
  // Properties of the record operations

  /** After a successful update, looking the id up finds the new model. */
  lemma UpdateThenFind(store: Users, id: U64, newModel: string)
    requires UpdateUser(store, id, newModel).found
    ensures FindUserById(UpdateUser(store, id, newModel).store, id) == Some(User(id, newModel))
  {
  }

  /** Updating never changes how many records carry any id. */
  lemma {:induction false} UpdateKeepsCounts(us: seq<User>, i: nat, newModel: string, id: U64)
    requires i < |us|
    ensures CountId(us[i := User(us[i].userId, newModel)], id) == CountId(us, id)
  {
    if i > 0 {
      assert us[i := User(us[i].userId, newModel)][1..] == us[1..][i - 1 := User(us[i].userId, newModel)];
      UpdateKeepsCounts(us[1..], i - 1, newModel, id);
    }
  }

  /** Appending a record adds one to its own id's count and nothing to others'. */
  lemma {:induction false} AppendCount(us: seq<User>, u: User, id: U64)
    ensures CountId(us + [u], id) == CountId(us, id) + (if u.userId == id then 1 else 0)
  {
    if |us| > 0 {
      assert (us + [u])[1..] == us[1..] + [u];
      AppendCount(us[1..], u, id);
    }
  }

  /** The count is zero exactly when no record carries the id. */
  lemma {:induction false} CountZero(us: seq<User>, id: U64)
    ensures CountId(us, id) == 0 <==> forall j :: 0 <= j < |us| ==> us[j].userId != id
  {
    if |us| > 0 {
      CountZero(us[1..], id);
      if CountId(us, id) == 0 {
        forall j | 0 <= j < |us| ensures us[j].userId != id {
          if j > 0 { assert us[j] == us[1..][j - 1]; }
        }
      }
    }
  }

  /** Ids are unique exactly when every id is counted at most once. */
  lemma {:induction false} UniqueByCount(store: Users)
    ensures UniqueIds(store) <==> forall k :: 0 <= k < |store.users| ==> CountId(store.users, store.users[k].userId) == 1
    decreases |store.users|
  {
    var us := store.users;
    if |us| > 0 {
      var tail := Users(us[1..]);
      UniqueByCount(tail);
      CountZero(us[1..], us[0].userId);
      if UniqueIds(store) {
        assert UniqueIds(tail) by {
          forall i, j | 0 <= i < j < |tail.users| ensures tail.users[i].userId != tail.users[j].userId {
            assert tail.users[i] == us[i + 1] && tail.users[j] == us[j + 1];
          }
        }
        forall k | 0 <= k < |us| ensures CountId(us, us[k].userId) == 1 {
          if k > 0 {
            assert us[k] == tail.users[k - 1];
          }
        }
      } else {
        var i, j :| 0 <= i < j < |us| && us[i].userId == us[j].userId;
        if i == 0 {
          assert us[j] == us[1..][j - 1];
          assert CountId(us, us[0].userId) != 1;
        } else {
          assert !UniqueIds(tail) by {
            assert tail.users[i - 1] == us[i] && tail.users[j - 1] == us[j];
          }
          var k :| 0 <= k < |tail.users| && CountId(tail.users, tail.users[k].userId) != 1;
          assert tail.users[k] == us[k + 1];
          CountZero(us[1..], tail.users[k].userId);
          assert CountId(us, us[k + 1].userId) != 1;
        }
      }
    }
  }

  /** In a store with unique ids the record `find_user_by_id` returns is the
      only one with its id. */
  lemma FindIsOnlyMatch(store: Users, id: U64)
    requires UniqueIds(store) && HasUser(store, id)
    ensures CountId(store.users, id) == 1
    ensures forall i :: 0 <= i < |store.users| && store.users[i].userId == id ==> store.users[i] == FindUserById(store, id).value
  {
    UniqueByCount(store);
    var i :| 0 <= i < |store.users| && store.users[i].userId == id;
    assert CountId(store.users, store.users[i].userId) == 1;
  }

  /** `add_user` does not check for an existing record: adding an id already
      present breaks the uniqueness invariant. */
  lemma AddExistingBreaksUniqueness(store: Users, user: User)
    requires HasUser(store, user.userId)
    ensures !UniqueIds(AddUser(store, user))
  {
  }

  // ---------------------------------------------------------------------------
  // The disk

  /** The state of `data/users.bson`: absent, unreadable as a `Users` document,
      or holding one. */
  datatype Disk = Missing | Corrupt | Stored(snapshot: Users)

  datatype StorageError = NotFound | Malformed

  /** `Users::default`: reads and decodes the whole document. */
  function Load(disk: Disk): (r: Result<Users, StorageError>)
    ensures r.Ok? <==> disk.Stored?
    ensures r.Ok? ==> r.value == disk.snapshot
    ensures disk.Missing? ==> r == Err(NotFound)
  {
    match disk
    case Missing => Err(NotFound)
    case Corrupt => Err(Malformed)
    case Stored(s) => Ok(s)
  }

  /** How a call of `write_users_datastorage` ends: the document is written;
      the call returns an error, whose text is `reason`; or the final `flush`
      fails, which the call's `unwrap` turns into a panic. */
  datatype WriteOutcome = Written | WriteError(reason: string) | FlushPanic

  /** `write_users_datastorage`: replaces the document with `store` when the
      write succeeds; otherwise the disk is left as it was. */
  function Persist(disk: Disk, store: Users, write: WriteOutcome): (d: Disk)
    ensures write.Written? ==> Load(d) == Ok(store)
    ensures !write.Written? ==> d == disk
  {
    if write.Written? then Stored(store) else disk
  }

  /** Writing back what was loaded leaves the disk as it was. */
  lemma PersistLoaded(disk: Disk, write: WriteOutcome)
    requires Load(disk).Ok?
    ensures Persist(disk, Load(disk).value, write) == disk
  {
  }

  /** `check_data_users_file`: a missing document is created holding an
      empty `users` list; any other state is left alone. */
  function InitStore(disk: Disk): (d: Disk)
    ensures disk.Missing? ==> Load(d) == Ok(Users([]))
    ensures !disk.Missing? ==> d == disk
  {
    if disk.Missing? then Stored(Users([])) else disk
  }
}

=== FILE: gpt.dfy ===
/** The completion side of src/utils/gpt.rs: turning channel history into a
    role-tagged transcript, choosing the engine from the stored model name, and
    the shape of the request sent to the completion service. */
module Gpt {
  import opened Wrappers
  import opened Ids
  import DataStorage

  datatype Role = User | Assistant

  /** A channel message as the history query returns it. */
  datatype Message = Message(authorId: U64, content: string)

  /** A transcript entry of the completion API. */
  datatype ChatMessage = ChatMessage(role: Role, content: string)

  datatype Engine = Gpt35Turbo | Gpt4

  /** Reply text when the completion client cannot be built or the call fails. */
  const FailureReply: string := "Error."

  /** The bot id as `BOT_ID` spells it, "0" when unset.  It is compared as
      text, without parsing. */
  function BotIdText(env: Option<string>): (t: string)
    ensures env.None? ==> t == "0"
    ensures env.Some? ==> t == env.value
  {
    env.GetOr("0")
  }

  /** A message is the bot's own when its author id, rendered in decimal,
      is the bot id text. */
  function RoleOf(m: Message, botId: string): (r: Role)
    ensures r == Assistant <==> Decimal(m.authorId) == botId
  {
    if botId == Decimal(m.authorId) then Assistant else User
  }

  /** The transcript entry for one message. */
  function Entry(m: Message, botId: string): (c: ChatMessage)
    ensures c.content == m.content
    ensures c.role == Assistant <==> Decimal(m.authorId) == botId
  {
    ChatMessage(RoleOf(m, botId), m.content)
  }

  /** `get_gpt_history_from_messages`: one entry per message, same order. */
  function History(messages: seq<Message>, botId: string): (h: seq<ChatMessage>)
    ensures |h| == |messages|
    ensures forall i :: 0 <= i < |h| ==> h[i] == Entry(messages[i], botId)
  {
    if |messages| == 0 then []
    else [Entry(messages[0], botId)] + History(messages[1..], botId)
  }

  /** Each entry's content is its message's, and its role is Assistant
      exactly when the message is the bot's own. */
  lemma HistoryEntries(messages: seq<Message>, botId: string, i: nat)
    requires i < |messages|
    ensures History(messages, botId)[i].content == messages[i].content
    ensures History(messages, botId)[i].role == Assistant <==> Decimal(messages[i].authorId) == botId
  {
  }

  /** History of a concatenation is the concatenation of histories: each entry
      depends on its own message only. */
  lemma HistoryAppend(a: seq<Message>, b: seq<Message>, botId: string)
    ensures History(a + b, botId) == History(a, botId) + History(b, botId)
  {
  }

  /** The loop of `get_gpt_history_from_messages`, pushing one entry per
      message onto an initially empty vector. */
  method BuildHistory(messages: seq<Message>, env: Option<string>) returns (history: seq<ChatMessage>)
    ensures history == History(messages, BotIdText(env))
  {
    var botId := BotIdText(env);
    history := [];
    var k := 0;
    while k < |messages|
      invariant 0 <= k <= |messages|
      invariant |history| == k
      invariant forall i :: 0 <= i < k ==> history[i] == Entry(messages[i], botId)
    {
      var message := messages[k];
      if botId == Decimal(message.authorId) {
        history := history + [ChatMessage(Assistant, message.content)];
      } else {
        history := history + [ChatMessage(User, message.content)];
      }
      k := k + 1;
    }
  }

  // ---------------------------------------------------------------------------
  // Engine selection

  /** The engine choice as `send_gpt_message` writes it: only the text
      `"gpt-3.5-turbo"` with its double quotes selects GPT-3.5-turbo. */
  function SelectEngineAsWritten(model: string): (e: Engine)
    ensures e == Gpt35Turbo <==> model == "\"gpt-3.5-turbo\""
  {
    if model == "\"gpt-3.5-turbo\"" then Gpt35Turbo else Gpt4
  }

  /** As written, the unquoted default that new users are given selects
      GPT-4, not the GPT-3.5-turbo the name says. */
  lemma DefaultSelectsGpt4AsWritten()
    ensures SelectEngineAsWritten(DataStorage.DefaultModel) == Gpt4
  {
  }

  /** The model name with one pair of surrounding double quotes removed, so
      that the JSON rendering of a name and the bare name agree. */
  function Unquoted(model: string): (u: string)
    ensures |u| <= |model|
    ensures |model| >= 2 && model[0] == '"' && model[|model| - 1] == '"' ==> u == model[1..|model| - 1]
    ensures !(|model| >= 2 && model[0] == '"' && model[|model| - 1] == '"') ==> u == model
  {
    if |model| >= 2 && model[0] == '"' && model[|model| - 1] == '"' then model[1..|model| - 1] else model
  }

  /** The engine a bare model name denotes. */
  function EngineNamed(name: string): (e: Engine)
    ensures e == Gpt35Turbo <==> name == "gpt-3.5-turbo"
  {
    if name == "gpt-3.5-turbo" then Gpt35Turbo else Gpt4
  }

  /** Corrected engine choice: the stored model selects the engine it names,
      whether it was stored bare or as the quoted JSON text of the option. */
  function SelectEngine(model: string): (e: Engine)
    ensures e == Gpt35Turbo <==> Unquoted(model) == "gpt-3.5-turbo"
  {
    EngineNamed(Unquoted(model))
  }

  /** Under the corrected rule the default selects GPT-3.5-turbo, and a name
      selects the same engine whether stored bare or quoted. */
  lemma EngineHonoursNames(name: string)
    requires |name| < 2 || name[0] != '"' || name[|name| - 1] != '"'
    ensures SelectEngine(DataStorage.DefaultModel) == Gpt35Turbo
    ensures SelectEngine(name) == EngineNamed(name)
    ensures SelectEngine("\"" + name + "\"") == EngineNamed(name)
  {
  }

  /** Wherever the written rule picks GPT-3.5-turbo, the corrected one does too. */
  lemma EngineExtendsAsWritten(model: string)
    ensures SelectEngineAsWritten(model) == Gpt35Turbo ==> SelectEngine(model) == Gpt35Turbo
  {
  }

  /** Which of the two engine rules a turn follows: the one the code writes,
      or the corrected one. */
  datatype EngineRule = AsWritten | Corrected

  function EngineFor(rule: EngineRule, model: string): (e: Engine)
    ensures rule.AsWritten? ==> (e == Gpt35Turbo <==> model == "\"gpt-3.5-turbo\"")
    ensures rule.Corrected? ==> (e == Gpt35Turbo <==> Unquoted(model) == "gpt-3.5-turbo")
  {
    match rule
    case AsWritten => SelectEngineAsWritten(model)
    case Corrected => SelectEngine(model)
  }

  // ---------------------------------------------------------------------------
  // The request

  /** What `send_gpt_message` hands the completion service: the engine, the
      whole transcript as conversation history, and the content of the
      transcript's first entry as the message to send. */
  datatype Request = Request(engine: Engine, conversation: seq<ChatMessage>, prompt: string)

  /** `send_gpt_message` takes the first transcript entry with `unwrap`, so
      the transcript must not be empty.  `rule` says which engine rule is
      applied to the stored model name. */
  function BuildRequest(rule: EngineRule, model: string, history: seq<ChatMessage>): (r: Request)
    requires |history| > 0
    ensures r.conversation == history
    ensures r.prompt == history[0].content
    ensures r.engine == Gpt35Turbo <==>
      (if rule.AsWritten? then model == "\"gpt-3.5-turbo\"" else Unquoted(model) == "gpt-3.5-turbo")
  {
    Request(EngineFor(rule, model), history, history[0].content)
  }

  /** A request built from the transcript of some channel messages carries
      one entry per message, in the order the query returned them, marks the
      bot's messages as the assistant's, and sends the content of the first
      of them, which is also the content of the conversation's first entry. */
  lemma RequestFromMessages(rule: EngineRule, model: string, messages: seq<Message>, botId: string, i: nat)
    requires i < |messages|
    ensures var r := BuildRequest(rule, model, History(messages, botId));
            && |r.conversation| == |messages|
            && r.conversation[i].content == messages[i].content
            && (r.conversation[i].role == Assistant <==> Decimal(messages[i].authorId) == botId)
            && r.prompt == messages[0].content == r.conversation[0].content
  {
    HistoryEntries(messages, botId, i);
    HistoryEntries(messages, botId, 0);
  }

  /** The text relayed back: the completion's reply, or the fixed failure
      text when there is none. */
  function ReplyText(completion: Option<string>): (t: string)
    ensures completion.Some? ==> t == completion.value
    ensures completion.None? ==> t == FailureReply
  {
    completion.GetOr(FailureReply)
  }
}

=== FILE: handler.dfy ===
/** The event handler of src/lib.rs: which messages the bot answers, how it
    picks the model for a conversation turn, what it sends to the completion
    service, and how slash commands are routed and answered. */
module Handler {
  import opened Wrappers
  import opened Ids
  import opened DataStorage
  import opened ThreadMembers
  import Gpt
  import ModelCommand
  import InfoCommand
  import Commands

  /** How many recent channel messages a turn asks the platform for. */
  const HistoryWindow: nat := 30

  const NotImplementedReply: string := "not implemented :("

  /** The bot's own id: `BOT_ID` parsed as a u64, or 0 when it is unset or
      does not parse. */
  function BotId(env: Option<string>): (id: U64)
    ensures env.None? ==> id == 0
    ensures env.Some? && ParseU64(env.value).None? ==> id == 0
    ensures env.Some? && ParseU64(env.value).Some? ==> id == ParseU64(env.value).value
    ensures id != 0 ==> env.Some? && Unsigned(env.value) != [] && AllDigits(Unsigned(env.value))
  {
    match env
    case None => 0
    case Some(text) => ParseU64(text).GetOr(0)
  }

  /** A `BOT_ID` written as the decimal id is read back as that id. */
  lemma BotIdReadsDecimal(n: U64)
    ensures BotId(Some(Decimal(n))) == n
  {
    ParseDecimal(n);
  }

  /** A `BOT_ID` with a character other than a digit (or one leading '+') is
      read as 0, as is an unset one. */
  lemma BotIdNonNumeric(text: string, i: nat)
    requires i < |text| && !IsDigit(text[i]) && !(i == 0 && text[i] == '+')
    ensures BotId(Some(text)) == 0
    ensures BotId(None) == 0
  {
  }

  /** When `BOT_ID` is the decimal id, the text comparison the transcript
      uses and the numeric comparison the filter uses agree on which
      messages are the bot's. */
  lemma BotIdViewsAgree(n: U64, m: Gpt.Message)
    ensures var env := Some(Decimal(n));
            Gpt.RoleOf(m, Gpt.BotIdText(env)) == Gpt.Assistant <==> m.authorId == BotId(env)
  {
    BotIdReadsDecimal(n);
    DecimalInjective(m.authorId, n);
  }

  // ---------------------------------------------------------------------------
  // Which messages are answered

  /** Why a turn ends without a reply and without touching the store. */
  datatype Skip = OwnMessage | MembersUnavailable | NotBotThread | HistoryUnavailable

  /** The failed `unwrap` or `expect` that ends a turn. */
  datatype Crash = MemberWithoutId | StoreUnavailable | StoreWriteFailed | TypingFailed | EmptyTranscript

  datatype Admission = Proceed | Stop(reason: Skip) | Fail(cause: Crash)

  /** The opening checks of `message`: the author check, then the
      thread-member check on the members sorted by join time.  `members` is
      `None` when the member query fails. */
  function Admit(botId: U64, author: U64, members: Option<seq<Member>>): (a: Admission)
    ensures author == botId ==> a == Stop(OwnMessage)
    ensures author != botId && members.None? ==> a == Stop(MembersUnavailable)
    ensures author != botId && members.Some? && members.value == [] ==> a == Stop(NotBotThread)
    ensures a.Proceed? <==>
      author != botId && members.Some? && |members.value| > 0 && Earliest(members.value).userId == Some(botId)
    ensures a.Fail? <==>
      author != botId && members.Some? && |members.value| > 0 && Earliest(members.value).userId.None?
    ensures a.Fail? ==> a.cause == MemberWithoutId
    ensures author != botId && members.Some? && |members.value| > 0
            && Earliest(members.value).userId.Some? && Earliest(members.value).userId != Some(botId) ==>
      a == Stop(NotBotThread)
  {
    if author == botId then Stop(OwnMessage)
    else
      match members
      case None => Stop(MembersUnavailable)
      case Some(ms) =>
        var sorted := SortByJoin(ms);
        if |sorted| == 0 then Stop(NotBotThread)
        else
          SortHeadIsEarliest(ms);
          match sorted[0].userId
          case None => Fail(MemberWithoutId)
          case Some(first) => if first != botId then Stop(NotBotThread) else Proceed
  }

  // ---------------------------------------------------------------------------
  // The model of a turn

  datatype Resolution = Resolution(model: string, disk: Disk)

  /** The store step of `message`: the author's stored model; an author
      without a record gets the default, which is appended and written.  A
      failed load or write `unwrap`s and ends the turn. */
  function ResolveModel(disk: Disk, author: U64, write: WriteOutcome): (r: Result<Resolution, Crash>)
    ensures Load(disk).Err? ==> r == Err(StoreUnavailable)
    ensures Load(disk).Ok? && HasUser(Load(disk).value, author) ==>
      r == Ok(Resolution(FindUserById(Load(disk).value, author).value.model, disk))
    ensures Load(disk).Ok? && !HasUser(Load(disk).value, author) && !write.Written? ==> r == Err(StoreWriteFailed)
    ensures Load(disk).Ok? && !HasUser(Load(disk).value, author) && write.Written? ==>
      r == Ok(Resolution(DefaultModel, Stored(AddUser(Load(disk).value, User(author, DefaultModel)))))
  {
    match Load(disk)
    case Err(_) => Err(StoreUnavailable)
    case Ok(users) =>
      match FindUserById(users, author)
      case Some(current) => Ok(Resolution(current.model, disk))
      case None =>
        if !write.Written? then Err(StoreWriteFailed)
        else Ok(Resolution(DefaultModel, Persist(disk, AddUser(users, User(author, DefaultModel)), write)))
  }

  /** The disk once the author is known to the store: unchanged for a known
      author, the loaded store with the default appended otherwise. */
  function Recorded(store: Users, disk: Disk, author: U64): Disk
  {
    if HasUser(store, author) then disk else Stored(AddUser(store, User(author, DefaultModel)))
  }

  /** How a message event ends.  `Ignored` turns write nothing. */
  datatype Turn =
    | Ignored(reason: Skip)
    | Aborted(cause: Crash, disk: Disk)
    | Replied(request: Option<Gpt.Request>, reply: string, disk: Disk)

  /** `message`: the whole turn for a message by `author`.  The platform and
      the completion service are parameters: `members` is the thread member
      query's answer, `recent(n)` the answer to a request for the last `n`
      channel messages, `write` how a store write ends, `typingOk` whether
      the typing indicator starts, `clientReady` whether the completion
      client can be built, and `complete` the service's reply to a request,
      `None` when the call fails.  `rule` is the engine rule applied to the
      stored model. */
  function OnMessage(rule: Gpt.EngineRule, env: Option<string>, author: U64, members: Option<seq<Member>>,
                     recent: nat -> Option<seq<Gpt.Message>>, disk: Disk, write: WriteOutcome,
                     typingOk: bool, clientReady: bool, complete: Gpt.Request -> Option<string>): (t: Turn)
    ensures author == BotId(env) ==> t == Ignored(OwnMessage)
    ensures !t.Ignored? ==> author != BotId(env) && members.Some? && |members.value| > 0
    ensures Admit(BotId(env), author, members).Stop? ==> t == Ignored(Admit(BotId(env), author, members).reason)
    ensures t.Aborted? && t.cause == MemberWithoutId <==> Admit(BotId(env), author, members).Fail?
    ensures Admit(BotId(env), author, members).Proceed? && recent(HistoryWindow).None? ==>
      t == Ignored(HistoryUnavailable)
    ensures Admit(BotId(env), author, members).Proceed? && recent(HistoryWindow).Some? && Load(disk).Err? ==>
      t == Aborted(StoreUnavailable, disk)
    ensures Admit(BotId(env), author, members).Proceed? && recent(HistoryWindow).Some? && Load(disk).Ok?
            && !HasUser(Load(disk).value, author) && !write.Written? ==>
      t == Aborted(StoreWriteFailed, disk)
    ensures Admit(BotId(env), author, members).Proceed? && recent(HistoryWindow).Some? && Load(disk).Ok?
            && (HasUser(Load(disk).value, author) || write.Written?) && !typingOk ==>
      t == Aborted(TypingFailed, Recorded(Load(disk).value, disk, author))
    ensures Admit(BotId(env), author, members).Proceed? && recent(HistoryWindow).Some? && Load(disk).Ok?
            && (HasUser(Load(disk).value, author) || write.Written?) && typingOk && !clientReady ==>
      t == Replied(None, Gpt.FailureReply, Recorded(Load(disk).value, disk, author))
    ensures Admit(BotId(env), author, members).Proceed? && recent(HistoryWindow).Some? && Load(disk).Ok?
            && (HasUser(Load(disk).value, author) || write.Written?) && typingOk && clientReady ==>
      (t.Replied? && t.request.Some? <==> |recent(HistoryWindow).value| > 0)
    ensures Admit(BotId(env), author, members).Proceed? && recent(HistoryWindow) == Some([]) && Load(disk).Ok?
            && (HasUser(Load(disk).value, author) || write.Written?) && typingOk && clientReady ==>
      t == Aborted(EmptyTranscript, Recorded(Load(disk).value, disk, author))
    ensures t.Replied? ==> Admit(BotId(env), author, members).Proceed? && recent(HistoryWindow).Some?
    ensures t.Replied? && t.request.Some? ==>
      t.request.value.conversation == Gpt.History(recent(HistoryWindow).value, Gpt.BotIdText(env))
      && |recent(HistoryWindow).value| > 0
      && t.request.value.prompt == recent(HistoryWindow).value[0].content
      && t.reply == Gpt.ReplyText(complete(t.request.value))
    ensures t.Replied? && t.request.None? ==> t.reply == Gpt.FailureReply && !clientReady
    ensures t.Aborted? && t.cause == EmptyTranscript ==> recent(HistoryWindow) == Some([]) && clientReady
    ensures t.Replied? ==> Load(disk).Ok? && typingOk
    ensures t.Replied? && t.request.Some? && HasUser(Load(disk).value, author) ==>
      t.request.value.engine == Gpt.EngineFor(rule, FindUserById(Load(disk).value, author).value.model)
    ensures t.Replied? && t.request.Some? && !HasUser(Load(disk).value, author) ==>
      t.request.value.engine == Gpt.EngineFor(rule, DefaultModel)
    ensures t.Replied? ==> t.disk == Recorded(Load(disk).value, disk, author)
    ensures t.Aborted? && t.cause in {TypingFailed, EmptyTranscript} ==>
      Load(disk).Ok? && t.disk == Recorded(Load(disk).value, disk, author)
    ensures t.Aborted? && t.cause !in {TypingFailed, EmptyTranscript} ==> t.disk == disk
  {
    var botId := BotId(env);
    match Admit(botId, author, members)
    case Stop(reason) => Ignored(reason)
    case Fail(cause) => Aborted(cause, disk)
    case Proceed =>
      match recent(HistoryWindow)
      case None => Ignored(HistoryUnavailable)
      case Some(messages) =>
        match ResolveModel(disk, author, write)
        case Err(cause) => Aborted(cause, disk)
        case Ok(resolved) =>
          if !typingOk then Aborted(TypingFailed, resolved.disk)
          else
            var transcript := Gpt.History(messages, Gpt.BotIdText(env));
            if !clientReady then Replied(None, Gpt.FailureReply, resolved.disk)
            else if |transcript| == 0 then Aborted(EmptyTranscript, resolved.disk)
            else
              var request := Gpt.BuildRequest(rule, resolved.model, transcript);
              Replied(Some(request), Gpt.ReplyText(complete(request)), resolved.disk)
  }

  /** As written, a turn for a user without a record asks for GPT-4, although
      the record it writes for them names GPT-3.5-turbo. */
  lemma NewUserTurnAsWritten(env: Option<string>, author: U64, members: Option<seq<Member>>,
                             recent: nat -> Option<seq<Gpt.Message>>, store: Users, write: WriteOutcome,
                             complete: Gpt.Request -> Option<string>)
    requires !HasUser(store, author)
    ensures var t := OnMessage(Gpt.AsWritten, env, author, members, recent, Stored(store), write, true, true, complete);
            t.Replied? ==> t.request.Some? && t.request.value.engine == Gpt.Gpt4
                           && FindUserById(Load(t.disk).value, author) == Some(User(author, DefaultModel))
  {
    Gpt.DefaultSelectsGpt4AsWritten();
    ModelCommand.UpsertIsAdd(store, author, DefaultModel);
  }

  /** Under the corrected engine rule the same turn asks for GPT-3.5-turbo,
      the engine the recorded default names. */
  lemma NewUserTurnCorrected(env: Option<string>, author: U64, members: Option<seq<Member>>,
                             recent: nat -> Option<seq<Gpt.Message>>, store: Users, write: WriteOutcome,
                             complete: Gpt.Request -> Option<string>)
    requires !HasUser(store, author)
    ensures var t := OnMessage(Gpt.Corrected, env, author, members, recent, Stored(store), write, true, true, complete);
            t.Replied? ==> t.request.Some? && t.request.value.engine == Gpt.Gpt35Turbo
                           && FindUserById(Load(t.disk).value, author) == Some(User(author, DefaultModel))
  {
    ModelCommand.UpsertIsAdd(store, author, DefaultModel);
  }

  /** A turn that got as far as a reply has recorded its author, so the same
      turn repeated on the disk it left writes nothing further and ends the
      same way, whatever a second write would have done. */
  lemma RepeatTurnIsStable(rule: Gpt.EngineRule, env: Option<string>, author: U64, members: Option<seq<Member>>,
                           recent: nat -> Option<seq<Gpt.Message>>, disk: Disk, write: WriteOutcome, write2: WriteOutcome,
                           typingOk: bool, clientReady: bool, complete: Gpt.Request -> Option<string>)
    requires OnMessage(rule, env, author, members, recent, disk, write, typingOk, clientReady, complete).Replied?
    ensures var first := OnMessage(rule, env, author, members, recent, disk, write, typingOk, clientReady, complete);
            OnMessage(rule, env, author, members, recent, first.disk, write2, typingOk, clientReady, complete) == first
  {
    var store := Load(disk).value;
    if !HasUser(store, author) {
      ModelCommand.UpsertIsAdd(store, author, DefaultModel);
    }
  }

  /** After `/model` stores a value for a user, that user's turns ask for
      the engine the active rule gives that value, and write nothing. */
  lemma TurnAfterModel(rule: Gpt.EngineRule, env: Option<string>, author: U64, members: Option<seq<Member>>,
                       recent: nat -> Option<seq<Gpt.Message>>, disk: Disk, value: string, write: WriteOutcome,
                       complete: Gpt.Request -> Option<string>)
    requires Load(disk).Ok?
    ensures var chosen := ModelCommand.Run(disk, author, Some(value), Written);
            var t := OnMessage(rule, env, author, members, recent, chosen.disk, write, true, true, complete);
            t.Replied? ==> t.request.Some? && t.request.value.engine == Gpt.EngineFor(rule, value) && t.disk == chosen.disk
  {
  }

  /** A model chosen through `/model` is stored as the quoted JSON text of
      the choice.  Under the written engine rule the quoted GPT-3.5-turbo
      choice is the one text that selects GPT-3.5-turbo; under the corrected
      rule every registered choice selects the engine it names. */
  lemma ChoicesSelectTheirEngine()
    ensures forall c :: c in ModelCommand.Choices ==>
      Gpt.SelectEngine(ModelCommand.JsonText(c.value)) == Gpt.EngineNamed(c.value)
    ensures Gpt.SelectEngineAsWritten(ModelCommand.JsonText("gpt-3.5-turbo")) == Gpt.Gpt35Turbo
    ensures Gpt.SelectEngineAsWritten(ModelCommand.JsonText("gpt-4")) == Gpt.Gpt4
  {
  }

  // ---------------------------------------------------------------------------
  // Slash commands

  datatype Command = Ping | CreateChat | SelectModel | Info | Unrecognised

  /** The `match` of `interaction_create` on the command name. */
  function Route(name: string): (c: Command)
    ensures c == Ping <==> name == "ping"
    ensures c == CreateChat <==> name == "create_chat"
    ensures c == SelectModel <==> name == "model"
    ensures c == Info <==> name == "info"
    ensures c == Unrecognised <==> name !in {"ping", "create_chat", "model", "info"}
  {
    if name == "ping" then Ping
    else if name == "create_chat" then CreateChat
    else if name == "model" then SelectModel
    else if name == "info" then Info
    else Unrecognised
  }

  /** An incoming interaction: a slash command with its name, the invoking
      user and the rendered value of its first option, or anything else. */
  datatype Interaction = SlashCommand(name: string, caller: U64, value: Option<string>) | OtherInteraction

  datatype Response = Response(ephemeral: bool, content: string)

  /** How a slash command ends: answered, or cut short by a panic in its
      handler before any answer is sent. */
  datatype Handled = Responded(response: Response, disk: Disk) | Unanswered(disk: Disk)

  /** `interaction_create`: runs the routed handler and answers with its
      text, visible to the caller only.  The `ping` and `create_chat`
      handlers are outside this model; their replies are parameters and they
      do not touch the store. */
  function OnInteraction(i: Interaction, disk: Disk, write: WriteOutcome,
                         pingReply: string, createChatReply: string): (r: Option<Handled>)
    ensures r.None? <==> i.OtherInteraction?
    ensures r.Some? && r.value.Responded? ==> r.value.response.ephemeral
    ensures r.Some? && r.value.Unanswered? <==>
      i.SlashCommand? && Route(i.name) in {SelectModel, Info} && write.FlushPanic?
      && Load(disk).Ok? && (if Route(i.name) == SelectModel then i.value.Some? else !HasUser(Load(disk).value, i.caller))
    ensures r.Some? && r.value.Unanswered? ==> r.value.disk == disk
    ensures i.SlashCommand? && Route(i.name) == Unrecognised ==>
      r == Some(Responded(Response(true, NotImplementedReply), disk))
    ensures i.SlashCommand? && Route(i.name) == Ping ==> r == Some(Responded(Response(true, pingReply), disk))
    ensures i.SlashCommand? && Route(i.name) == CreateChat ==> r == Some(Responded(Response(true, createChatReply), disk))
    ensures i.SlashCommand? && Route(i.name) == SelectModel && ModelCommand.Run(disk, i.caller, i.value, write).Reply? ==>
      var reply := ModelCommand.Run(disk, i.caller, i.value, write);
      r.value == Responded(Response(true, reply.text), reply.disk)
    ensures i.SlashCommand? && Route(i.name) == Info && InfoCommand.Run(disk, i.caller, write).Reply? ==>
      var reply := InfoCommand.Run(disk, i.caller, write);
      r.value == Responded(Response(true, reply.text), reply.disk)
  {
    match i
    case OtherInteraction => None
    case SlashCommand(name, caller, value) =>
      var reply :=
        match Route(name)
        case Ping => Commands.Reply(pingReply, disk)
        case CreateChat => Commands.Reply(createChatReply, disk)
        case SelectModel => ModelCommand.Run(disk, caller, value, write)
        case Info => InfoCommand.Run(disk, caller, write)
        case Unrecognised => Commands.Reply(NotImplementedReply, disk);
      match reply
      case Reply(text, disk') => Some(Responded(Response(true, text), disk'))
      case Panicked(disk') => Some(Unanswered(disk'))
  }

  /** `/model v` and then `/info` from the same user, both dispatched by
      `interaction_create`: the second answers with `v`, writes nothing, and
      every other user's record is as it was before the pair. */
  lemma ModelThenInfo(disk: Disk, caller: U64, v: string, infoValue: Option<string>, write: WriteOutcome,
                      pingReply: string, createChatReply: string, other: U64)
    requires Load(disk).Ok? && other != caller
    ensures var first := OnInteraction(SlashCommand("model", caller, Some(v)), disk, Written, pingReply, createChatReply);
            var second := OnInteraction(SlashCommand("info", caller, infoValue), first.value.disk, write, pingReply, createChatReply);
            && first == Some(Responded(Response(true, ModelCommand.SuccessReply), first.value.disk))
            && second == Some(Responded(Response(true, InfoCommand.InfoReply(v)), first.value.disk))
            && FindUserById(Load(second.value.disk).value, other) == FindUserById(Load(disk).value, other)
  {
    InfoCommand.InfoAfterModel(disk, caller, v, write);
    ModelCommand.UpsertKeepsOthers(Load(disk).value, caller, v, other);
  }
}

=== FILE: ids.dfy ===
/** Discord snowflake ids (Rust `u64`) and the two text conversions the bot
    applies to them: `to_string` and `str::parse`. */
module Ids {
  import opened Wrappers

  const U64Limit: nat := 0x1_0000_0000_0000_0000

  /** An unsigned 64-bit integer. */
  type U64 = n: nat | n < U64Limit

  predicate IsDigit(c: char) {
    '0' <= c <= '9'
  }

  predicate AllDigits(s: string) {
    forall i :: 0 <= i < |s| ==> IsDigit(s[i])
  }

  function DigitChar(d: nat): (c: char)
    requires d < 10
    ensures IsDigit(c)
  {
    ('0' as int + d) as char
  }

  function DigitValue(c: char): (d: nat)
    requires IsDigit(c)
    ensures d < 10
  {
    c as int - '0' as int
  }

  /** Rendering of an unsigned integer by `to_string`: decimal digits, no sign,
      no leading zero. */
  function Decimal(n: nat): (s: string)
    ensures |s| > 0 && AllDigits(s)
    ensures |s| > 1 ==> s[0] != '0'
  {
    if n < 10 then [DigitChar(n)] else Decimal(n / 10) + [DigitChar(n % 10)]
  }

  /** The number a string of decimal digits denotes (leading zeros allowed). */
  function DigitsValue(s: string): nat
    requires AllDigits(s)
  {
    if |s| == 0 then 0 else DigitsValue(s[..|s| - 1]) * 10 + DigitValue(s[|s| - 1])
  }

  /** The text `str::parse::<u64>` reads digits from: one leading '+' is dropped. */
  function Unsigned(s: string): string {
    if |s| > 0 && s[0] == '+' then s[1..] else s
  }

  /** `str::parse::<u64>`: an optional '+', then one or more decimal digits
      whose value fits in 64 bits; anything else is an error.  Rust checks for
      overflow digit by digit; since a prefix never denotes more than the whole
      string, that is the same as checking the final value. */
  function ParseU64(s: string): (r: Option<U64>)
    ensures r.Some? <==> |Unsigned(s)| > 0 && AllDigits(Unsigned(s)) && DigitsValue(Unsigned(s)) < U64Limit
    ensures r.Some? ==> r.value == DigitsValue(Unsigned(s))
  {
    var digits := Unsigned(s);
    if |digits| > 0 && AllDigits(digits) && DigitsValue(digits) < U64Limit then
      Some(DigitsValue(digits))
    else
      None
  }

  /** Reading back the decimal rendering of a number gives the number. */
  lemma {:induction false} DecimalValue(n: nat)
    ensures DigitsValue(Decimal(n)) == n
  {
    if n >= 10 {
      var s := Decimal(n);
      assert s[..|s| - 1] == Decimal(n / 10);
      DecimalValue(n / 10);
    }
  }

  /** `parse` inverts `to_string` on every u64. */
  lemma ParseDecimal(n: U64)
    ensures ParseU64(Decimal(n)) == Some(n)
  {
    DecimalValue(n);
    assert Unsigned(Decimal(n)) == Decimal(n);
  }

  /** Two ids render to the same text only when they are equal. */
  lemma DecimalInjective(n: U64, m: U64)
    ensures Decimal(n) == Decimal(m) <==> n == m
  {
    if Decimal(n) == Decimal(m) {
      ParseDecimal(n);
      ParseDecimal(m);
    }
  }

  /** A string with a character that is neither a digit nor the single leading
      '+' does not parse. */
  lemma NonNumericRejected(s: string, i: nat)
    requires i < |s| && !IsDigit(s[i]) && !(i == 0 && s[i] == '+')
    ensures ParseU64(s) == None
  {
  }
}

=== FILE: info_command.dfy ===
/** The `/info` slash command of src/commands/info.rs: reports the caller's
    model, first recording the default for a caller without a record. */
module InfoCommand {
  import opened Wrappers
  import opened Ids
  import opened DataStorage
  import opened Commands
  import ModelCommand

  const InfoPrefix: string := "The currently selected GPT model: "

  function InfoReply(model: string): (r: string)
    ensures |r| == |InfoPrefix| + |model|
    ensures r[..|InfoPrefix|] == InfoPrefix && r[|InfoPrefix|..] == model
  {
    InfoPrefix + model
  }

  /** `run`: `write` is how the store write ends.  The store is loaded a
      second time before the default record is added; both loads read the
      same disk. */
  function Run(disk: Disk, caller: U64, write: WriteOutcome): (r: Reply)
    ensures Load(disk).Err? ==> r == Reply(LoadFailureReply, disk)
    ensures Load(disk).Ok? && HasUser(Load(disk).value, caller) ==>
      r == Reply(InfoReply(FindUserById(Load(disk).value, caller).value.model), disk)
    ensures Load(disk).Ok? && !HasUser(Load(disk).value, caller) && write.WriteError? ==>
      r == Reply(WriteFailureReply(write.reason), disk)
    ensures Load(disk).Ok? && !HasUser(Load(disk).value, caller) && write.FlushPanic? ==>
      r == Panicked(disk)
    ensures Load(disk).Ok? && !HasUser(Load(disk).value, caller) && write.Written? ==>
      r == Reply(InfoReply(DefaultModel), Stored(AddUser(Load(disk).value, User(caller, DefaultModel))))
  {
    match Load(disk)
    case Err(_) => Reply(LoadFailureReply, disk)
    case Ok(users) =>
      match FindUserById(users, caller)
      case Some(current) => Reply(InfoReply(current.model), disk)
      case None =>
        match Load(disk)
        case Err(_) => Reply(LoadFailureReply, disk)
        case Ok(reloaded) =>
          var store' := AddUser(reloaded, User(caller, DefaultModel));
          match write
          case WriteError(e) => Reply(WriteFailureReply(e), disk)
          case FlushPanic => Panicked(disk)
          case Written => Reply(InfoReply(DefaultModel), Persist(disk, store', write))
  }

  /** A second `/info` by a caller the first one registered writes nothing
      and gives the same answer, whatever its own write would have done. */
  lemma SecondInfoReadOnly(disk: Disk, caller: U64, write: WriteOutcome)
    requires Load(disk).Ok?
    ensures var first := Run(disk, caller, Written);
            Run(first.disk, caller, write) == first
  {
  }

  /** `/info` after a successful `/model` reports the stored option text. */
  lemma InfoAfterModel(disk: Disk, caller: U64, value: string, write: WriteOutcome)
    requires Load(disk).Ok?
    ensures var chosen := ModelCommand.Run(disk, caller, Some(value), Written);
            Run(chosen.disk, caller, write) == Reply(InfoReply(value), chosen.disk)
  {
  }

  /** A record written by `/info` for a new caller keeps the store's ids unique. */
  lemma InfoKeepsUnique(disk: Disk, caller: U64, write: WriteOutcome)
    requires Load(disk).Ok? && UniqueIds(Load(disk).value)
    ensures Load(Run(disk, caller, write).disk).Ok?
    ensures UniqueIds(Load(Run(disk, caller, write).disk).value)
  {
  }
}

=== FILE: model_command.dfy ===
/** The `/model` slash command of src/commands/model.rs: stores the caller's
    chosen model, updating their record or appending one. */
module ModelCommand {
  import opened Wrappers
  import opened Ids
  import opened DataStorage
  import opened Commands

  const MissingValueReply: string := "Error fetch the model name."
  const SuccessReply: string := "The GPT model update for you has been successfully completed!"

  /** A choice offered by the command's registration: display name and value. */
  datatype Choice = Choice(name: string, value: string)

  /** The choices `register` offers for the command's one required option. */
  const Choices: seq<Choice> := [Choice("ChatGPT 3.5-turbo", "gpt-3.5-turbo"), Choice("ChatGPT 4", "gpt-4")]

  /** The values a client can submit through the registered choices. */
  function ChoiceValues(): (vs: set<string>)
    ensures vs == {"gpt-3.5-turbo", "gpt-4"}
  {
    set c | c in Choices :: c.value
  }

  /** The text a handler stores for an option: the `to_string` rendering of the
      JSON value, which for a string value without characters needing escapes
      is the string between double quotes. */
  function JsonText(value: string): (t: string)
    ensures |t| == |value| + 2 && t[0] == '"' && t[|t| - 1] == '"' && t[1..|t| - 1] == value
  {
    "\"" + value + "\""
  }

  /** `update_user`, then `add_user` if no record was updated. */
  function Upsert(store: Users, id: U64, model: string): (r: Users)
    ensures FindUserById(r, id) == Some(User(id, model))
    ensures HasUser(store, id) ==> |r.users| == |store.users|
    ensures HasUser(store, id) ==> r == UpdateUser(store, id, model).store
    ensures !HasUser(store, id) ==> r == AddUser(store, User(id, model))
    ensures forall i :: 0 <= i < |store.users| && store.users[i].userId != id ==> r.users[i] == store.users[i]
    ensures forall i :: 0 <= i < |store.users| ==> r.users[i].userId == store.users[i].userId
  {
    var updated := UpdateUser(store, id, model);
    if updated.found then
      UpdateThenFind(store, id, model);
      updated.store
    else
      AddUser(updated.store, User(id, model))
  }

  /** `run`: `value` is the rendered value of the command's first option, or
      `None` when it carries none; `write` is how the store write ends.  The
      value is stored as given: the handler relies on the registered choices
      and does not check it. */
  function Run(disk: Disk, caller: U64, value: Option<string>, write: WriteOutcome): (r: Reply)
    ensures Load(disk).Err? ==> r == Reply(LoadFailureReply, disk)
    ensures Load(disk).Ok? && value.None? ==> r == Reply(MissingValueReply, disk)
    ensures Load(disk).Ok? && value.Some? && write.WriteError? ==> r == Reply(WriteFailureReply(write.reason), disk)
    ensures Load(disk).Ok? && value.Some? && write.FlushPanic? ==> r == Panicked(disk)
    ensures Load(disk).Ok? && value.Some? && write.Written? ==>
      r == Reply(SuccessReply, Stored(Upsert(Load(disk).value, caller, value.value)))
      && FindUserById(Load(r.disk).value, caller) == Some(User(caller, value.value))
  {
    match Load(disk)
    case Err(_) => Reply(LoadFailureReply, disk)
    case Ok(store) =>
      match value
      case None => Reply(MissingValueReply, disk)
      case Some(model) =>
        var store' := Upsert(store, caller, model);
        match write
        case WriteError(e) => Reply(WriteFailureReply(e), disk)
        case FlushPanic => Panicked(disk)
        case Written => Reply(SuccessReply, Persist(disk, store', write))
  }

  // ---------------------------------------------------------------------------
  // Properties of the upsert

  /** The caller's record count goes from 0 to 1 and is otherwise unchanged;
      other ids keep their counts. */
  lemma UpsertCounts(store: Users, id: U64, model: string, other: U64)
    ensures CountId(Upsert(store, id, model).users, id) == if HasUser(store, id) then CountId(store.users, id) else 1
    ensures other != id ==> CountId(Upsert(store, id, model).users, other) == CountId(store.users, other)
  {
    var p := Position(store.users, id);
    if p.Some? {
      assert Upsert(store, id, model).users == store.users[p.value := User(store.users[p.value].userId, model)];
      UpdateKeepsCounts(store.users, p.value, model, id);
      UpdateKeepsCounts(store.users, p.value, model, other);
    } else {
      AppendCount(store.users, User(id, model), id);
      AppendCount(store.users, User(id, model), other);
      CountZero(store.users, id);
    }
  }

  /** Upserting a record for one id does not change what a lookup of any
      other id finds. */
  lemma UpsertKeepsOthers(store: Users, id: U64, model: string, other: U64)
    requires other != id
    ensures FindUserById(Upsert(store, id, model), other) == FindUserById(store, other)
  {
    var r := Upsert(store, id, model);
    assert |r.users| == |store.users| || r.users == store.users + [User(id, model)];
    var p := Position(store.users, other);
    var q := Position(r.users, other);
    if p.None? {
      assert q.None?;
    } else {
      assert r.users[p.value] == store.users[p.value];
      assert q.Some? && q.value == p.value;
    }
  }

  /** For an id without a record, upserting is appending; the lookup then
      finds the appended record. */
  lemma UpsertIsAdd(store: Users, id: U64, model: string)
    requires !HasUser(store, id)
    ensures Upsert(store, id, model) == AddUser(store, User(id, model))
    ensures FindUserById(Upsert(store, id, model), id) == Some(User(id, model))
  {
  }

  /** Upserting keeps ids unique. */
  lemma UpsertKeepsUnique(store: Users, id: U64, model: string)
    requires UniqueIds(store)
    ensures UniqueIds(Upsert(store, id, model))
  {
  }

  /** Upserting the same pair twice is the same as once. */
  lemma UpsertIdempotent(store: Users, id: U64, model: string)
    ensures Upsert(Upsert(store, id, model), id, model) == Upsert(store, id, model)
  {
  }

  /** Of two upserts for one id, the second decides the stored model, and the
      store is as if only the second had happened. */
  lemma UpsertLastWins(store: Users, id: U64, first: string, second: string)
    ensures Upsert(Upsert(store, id, first), id, second) == Upsert(store, id, second)
  {
  }

  /** Upserts applied one after another, in order. */
  function UpsertAll(store: Users, id: U64, models: seq<string>): Users
    decreases |models|
  {
    if |models| == 0 then store else UpsertAll(Upsert(store, id, models[0]), id, models[1..])
  }

  /** After any non-empty run of upserts for one id, starting from a store
      with at most one record for it, exactly one record carries the id and
      it holds the last model. */
  lemma {:induction false} UpsertAllLeavesOne(store: Users, id: U64, models: seq<string>)
    requires |models| > 0
    requires CountId(store.users, id) <= 1
    ensures CountId(UpsertAll(store, id, models).users, id) == 1
    ensures FindUserById(UpsertAll(store, id, models), id) == Some(User(id, models[|models| - 1]))
    decreases |models|
  {
    var next := Upsert(store, id, models[0]);
    UpsertCounts(store, id, model := models[0], other := id);
    if HasUser(store, id) {
      CountZero(store.users, id);
    }
    if |models| > 1 {
      UpsertAllLeavesOne(next, id, models[1..]);
    }
  }
}

=== FILE: thread_members.dfy ===
/** The thread-member ordering of src/lib.rs: members are stable-sorted by
    the time they joined, and the first one decides whether the bot opened
    the thread. */
module ThreadMembers {
  import opened Wrappers
  import opened Ids

  /** A thread member: the user id the platform reports (it may omit it) and
      the join time, as a number that orders like the platform's timestamp. */
  datatype Member = Member(userId: Option<U64>, joined: int)

  ghost predicate SortedByJoin(ms: seq<Member>) {
    forall i, j :: 0 <= i < j < |ms| ==> ms[i].joined <= ms[j].joined
  }

  /** Inserts `m` into a sorted list ahead of every member that joined no
      earlier than it. */
  function Insert(m: Member, sorted: seq<Member>): (r: seq<Member>)
    ensures |r| == |sorted| + 1
    ensures multiset(r) == multiset(sorted) + multiset{m}
  {
    if |sorted| == 0 || m.joined <= sorted[0].joined then [m] + sorted
    else
      assert sorted == [sorted[0]] + sorted[1..];
      [sorted[0]] + Insert(m, sorted[1..])
  }

  /** Inserting keeps a lower bound that `m` and the list share. */
  lemma {:induction false} InsertBound(m: Member, sorted: seq<Member>, t: int)
    requires m.joined >= t
    requires forall i :: 0 <= i < |sorted| ==> sorted[i].joined >= t
    ensures forall i :: 0 <= i < |Insert(m, sorted)| ==> Insert(m, sorted)[i].joined >= t
  {
    if |sorted| > 0 && m.joined > sorted[0].joined {
      InsertBound(m, sorted[1..], t);
    }
  }

  lemma {:induction false} InsertSorted(m: Member, sorted: seq<Member>)
    requires SortedByJoin(sorted)
    ensures SortedByJoin(Insert(m, sorted))
  {
    if |sorted| > 0 && m.joined > sorted[0].joined {
      InsertSorted(m, sorted[1..]);
      InsertBound(m, sorted[1..], sorted[0].joined);
    }
  }

  /** `sort_by` on join time: a stable sort, modelled as insertion sort,
      which returns the same list as any stable sort. */
  function SortByJoin(ms: seq<Member>): (r: seq<Member>)
    ensures |r| == |ms|
    ensures multiset(r) == multiset(ms)
    ensures SortedByJoin(r)
  {
    if |ms| == 0 then []
    else
      assert ms == [ms[0]] + ms[1..];
      InsertSorted(ms[0], SortByJoin(ms[1..]));
      Insert(ms[0], SortByJoin(ms[1..]))
  }

  /** The members that joined at time `t`, in list order. */
  function JoinedAt(ms: seq<Member>, t: int): seq<Member>
  {
    if |ms| == 0 then []
    else (if ms[0].joined == t then [ms[0]] else []) + JoinedAt(ms[1..], t)
  }

  lemma {:induction false} InsertJoinedAt(m: Member, sorted: seq<Member>, t: int)
    ensures JoinedAt(Insert(m, sorted), t) == (if m.joined == t then [m] else []) + JoinedAt(sorted, t)
  {
    if |sorted| == 0 || m.joined <= sorted[0].joined {
      assert ([m] + sorted)[1..] == sorted;
    } else {
      var rest := Insert(m, sorted[1..]);
      assert ([sorted[0]] + rest)[1..] == rest;
      InsertJoinedAt(m, sorted[1..], t);
    }
  }

  /** The sort is stable: members that joined at the same time keep their
      relative order. */
  lemma {:induction false} SortIsStable(ms: seq<Member>, t: int)
    ensures JoinedAt(SortByJoin(ms), t) == JoinedAt(ms, t)
  {
    if |ms| > 0 {
      SortIsStable(ms[1..], t);
      InsertJoinedAt(ms[0], SortByJoin(ms[1..]), t);
    }
  }

  /** The member that heads the join order: the first, in list order, of
      those with the earliest join time. */
  function Earliest(ms: seq<Member>): (e: Member)
    requires |ms| > 0
    ensures e in ms
    ensures forall i :: 0 <= i < |ms| ==> e.joined <= ms[i].joined
  {
    if |ms| == 1 then ms[0]
    else
      var e := Earliest(ms[1..]);
      if ms[0].joined <= e.joined then ms[0] else e
  }

  /** No member listed ahead of `Earliest` joined as early as it. */
  lemma {:induction false} EarliestIsFirstOfTies(ms: seq<Member>, i: nat)
    requires i < |ms| && ms[i].joined == Earliest(ms).joined
    ensures exists k :: 0 <= k <= i && ms[k] == Earliest(ms)
  {
    if |ms| > 1 && ms[0].joined > Earliest(ms[1..]).joined {
      assert i > 0;
      EarliestIsFirstOfTies(ms[1..], i - 1);
      var k :| 0 <= k <= i - 1 && ms[1..][k] == Earliest(ms[1..]);
      assert ms[k + 1] == Earliest(ms);
    } else {
      assert ms[0] == Earliest(ms);
    }
  }

  /** The head of the sorted list is the earliest member, ties going to the
      one listed first. */
  lemma {:induction false} SortHeadIsEarliest(ms: seq<Member>)
    requires |ms| > 0
    ensures SortByJoin(ms)[0] == Earliest(ms)
  {
    if |ms| > 1 {
      SortHeadIsEarliest(ms[1..]);
    }
  }
}

=== FILE: tui.dfy ===
/** The key handling of the terminal front end in src/ui/mod.rs: a
    confirmation popup that starts the bot, after which the screen takes
    free text input.  Drawing is not modelled. */
module Tui {
  import opened Wrappers

  datatype InputMode = Normal | Updating

  /** The state the key loop reads and changes. */
  datatype App = App(input: string, mode: InputMode, showPopup: bool, selection: Option<bool>)

  /** The state `App::default` builds. */
  const Initial: App := App("", Normal, false, None)

  datatype KeyCode = Char(c: char) | Esc | Backspace | OtherKey

  /** What one iteration of the loop receives: nothing within the polling
      interval, a key press, or another terminal event. */
  datatype Event = Timeout | Key(code: KeyCode) | OtherEvent

  /** The outcome of one iteration: leave the loop, or go on with a new
      state, having started the bot or not. */
  datatype Outcome = Quit | Continue(app: App, startsBot: bool)

  /** One iteration of the loop of `run_app`. */
  function Step(app: App, event: Event): (s: Outcome)
    ensures event.Key? && event.code == Char('q') ==> s == Quit
    ensures !event.Key? ==> s == Continue(app, false)
    ensures s.Continue? && s.startsBot ==>
      event == Key(Char('y')) && app.mode == Normal && app.showPopup && s.app.mode == Updating
    ensures s.Continue? && app.mode == Updating ==> s.app.mode == Updating && !s.startsBot
    ensures s.Continue? && app.mode == Normal ==> s.app.input == app.input
    ensures s.Continue? && app.mode == Normal ==> (s.app.mode == Updating <==> s.startsBot)
    ensures s.Continue? && app.mode == Normal && !app.showPopup && s.app.showPopup ==> event == Key(Char('s'))
  {
    match event
    case Timeout => Continue(app, false)
    case OtherEvent => Continue(app, false)
    case Key(code) =>
      match app.mode
      case Normal => NormalKey(app, code)
      case Updating => UpdatingKey(app, code)
  }

  /** The Normal-mode arm of `run_app`'s key match: keys while the start
      popup may be shown. */
  function NormalKey(app: App, code: KeyCode): (s: Outcome)
    requires app.mode == Normal
  {
    match code
    case Esc => Continue(app.(showPopup := false), false)
    case Char(c) =>
      if c == 's' then
        Continue(app.(selection := if app.showPopup then Some(false) else None, showPopup := !app.showPopup), false)
      else if c == 'y' then
        if app.showPopup then Continue(app.(selection := Some(true), showPopup := false, mode := Updating), true)
        else Continue(app, false)
      else if c == 'n' then
        if app.showPopup then Continue(app.(selection := Some(false), showPopup := false), false)
        else Continue(app, false)
      else if c == 'q' then Quit
      else Continue(app, false)
    case _ => Continue(app, false)
  }

  /** The Updating-mode arm of `run_app`'s key match: keys once the bot runs. */
  function UpdatingKey(app: App, code: KeyCode): (s: Outcome)
    requires app.mode == Updating
  {
    match code
    case Char(c) =>
      if c == 'q' then Quit else Continue(app.(input := app.input + [c]), false)
    case Backspace =>
      Continue(app.(input := if |app.input| == 0 then "" else app.input[..|app.input| - 1]), false)
    case _ => Continue(app, false)
  }

  /** The popup keys of Normal mode, one by one. */
  lemma NormalModeKeys(app: App)
    requires app.mode == Normal
    ensures Step(app, Key(Char('s'))) ==
      Continue(App(app.input, Normal, !app.showPopup, if app.showPopup then Some(false) else None), false)
    ensures app.showPopup ==> Step(app, Key(Char('y'))) == Continue(App(app.input, Updating, false, Some(true)), true)
    ensures !app.showPopup ==> Step(app, Key(Char('y'))) == Continue(app, false)
    ensures app.showPopup ==> Step(app, Key(Char('n'))) == Continue(app.(showPopup := false, selection := Some(false)), false)
    ensures app.showPopup ==> Step(app, Key(Esc)) == Continue(app.(showPopup := false), false)
    ensures !app.showPopup ==> Step(app, Key(Char('n'))) == Continue(app, false) && Step(app, Key(Esc)) == Continue(app, false)
    ensures forall c :: c !in {'s', 'y', 'n', 'q'} ==> Step(app, Key(Char(c))) == Continue(app, false)
    ensures Step(app, Key(Backspace)) == Continue(app, false) && Step(app, Key(OtherKey)) == Continue(app, false)
  {
  }

  /** Text editing once the bot runs: any character but 'q' is appended,
      Backspace drops the last one and does nothing to empty input. */
  lemma UpdatingModeKeys(app: App, c: char)
    requires app.mode == Updating && c != 'q'
    ensures Step(app, Key(Char(c))) == Continue(app.(input := app.input + [c]), false)
    ensures |app.input| > 0 ==> Step(app, Key(Backspace)) == Continue(app.(input := app.input[..|app.input| - 1]), false)
    ensures |app.input| == 0 ==> Step(app, Key(Backspace)) == Continue(app, false)
    ensures Step(app, Key(Esc)) == Continue(app, false)
    ensures Step(app, Key(OtherKey)) == Continue(app, false)
  {
  }

  /** The state after a run of events, whether 'q' ended the loop, and how
      many times the bot was started.  Events after the loop ends are not read. */
  datatype Session = Session(last: App, quit: bool, starts: nat)

  function Run(app: App, events: seq<Event>): Session
    decreases |events|
  {
    if |events| == 0 then Session(app, false, 0)
    else
      match Step(app, events[0])
      case Quit => Session(app, true, 0)
      case Continue(next, started) =>
        var rest := Run(next, events[1..]);
        rest.(starts := rest.starts + if started then 1 else 0)
  }

  /** Updating mode is never left, and the bot is never started from it. */
  lemma {:induction false} UpdatingAbsorbs(app: App, events: seq<Event>)
    requires app.mode == Updating
    ensures Run(app, events).last.mode == Updating
    ensures Run(app, events).starts == 0
    decreases |events|
  {
    if |events| > 0 && Step(app, events[0]).Continue? {
      UpdatingAbsorbs(Step(app, events[0]).app, events[1..]);
    }
  }

  /** Over any run of events the bot is started at most once, and once it
      has been, the screen is in Updating mode. */
  lemma {:induction false} StartsAtMostOnce(app: App, events: seq<Event>)
    ensures Run(app, events).starts <= 1
    ensures Run(app, events).starts == 1 ==> Run(app, events).last.mode == Updating
    decreases |events|
  {
    if |events| > 0 && Step(app, events[0]).Continue? {
      var next := Step(app, events[0]).app;
      if Step(app, events[0]).startsBot {
        UpdatingAbsorbs(next, events[1..]);
      } else {
        StartsAtMostOnce(next, events[1..]);
      }
    }
  }

  /** While in Normal mode the text input is never changed. */
  lemma {:induction false} NormalKeepsInput(app: App, events: seq<Event>)
    requires app.mode == Normal
    ensures Run(app, events).last.mode == Normal ==> Run(app, events).last.input == app.input
    decreases |events|
  {
    if |events| > 0 && Step(app, events[0]).Continue? {
      var next := Step(app, events[0]).app;
      if next.mode == Normal {
        NormalKeepsInput(next, events[1..]);
      } else {
        UpdatingAbsorbs(next, events[1..]);
      }
    }
  }

  /** From Normal mode a start needs a 'y' that finds the popup open: it was
      open already, or an 's' came before that 'y'. */
  lemma {:induction false} StartNeedsConfirmation(app: App, events: seq<Event>)
    requires app.mode == Normal
    requires Run(app, events).starts > 0
    ensures exists j :: 0 <= j < |events| && events[j] == Key(Char('y'))
              && (app.showPopup || exists i :: 0 <= i < j && events[i] == Key(Char('s')))
    decreases |events|
  {
    var s := Step(app, events[0]);
    if s.startsBot {
      assert events[0] == Key(Char('y'));
    } else {
      var rest := events[1..];
      StartNeedsConfirmation(s.app, rest);
      var j :| 0 <= j < |rest| && rest[j] == Key(Char('y'))
               && (s.app.showPopup || exists i :: 0 <= i < j && rest[i] == Key(Char('s')));
      assert events[j + 1] == Key(Char('y'));
      if !app.showPopup {
        if s.app.showPopup {
          assert events[0] == Key(Char('s'));
        } else {
          var i :| 0 <= i < j && rest[i] == Key(Char('s'));
          assert events[i + 1] == Key(Char('s'));
        }
      }
    }
  }

  /** From the state the program starts in, the bot is started only after an
      's' opened the popup and a later 'y' confirmed it. */
  lemma InitialStartNeedsSThenY(events: seq<Event>)
    requires Run(Initial, events).starts > 0
    ensures exists i, j :: 0 <= i < j < |events| && events[i] == Key(Char('s')) && events[j] == Key(Char('y'))
  {
    StartNeedsConfirmation(Initial, events);
    var j :| 0 <= j < |events| && events[j] == Key(Char('y'))
             && (Initial.showPopup || exists i :: 0 <= i < j && events[i] == Key(Char('s')));
    var i :| 0 <= i < j && events[i] == Key(Char('s'));
    assert 0 <= i < j < |events| && events[i] == Key(Char('s')) && events[j] == Key(Char('y'));
  }
}

=== FILE: wrappers.dfy ===
/** Option and Result, the two failure-carrying shapes the Rust code uses
    (`Option<T>` and `Result<T, E>`). */
module Wrappers {

  datatype Option<+T> = None | Some(value: T) {

    /** The contained value, or `default` when there is none (Rust's `unwrap_or`). */
    function GetOr(default: T): T {
      match this
      case Some(v) => v
      case None => default
    }
  }

  datatype Result<+T, +E> = Ok(value: T) | Err(error: E)
}
